=== FILE: README.md ===
# Spanish Bananagrams solver: tile matching and word ranking

This project is a Dafny model of the word engine of a Spanish Bananagrams
solver. The engine answers one question: which dictionary words can a player
form from the tiles in hand? It has four parts, and this model covers all of
them:

- `split_tiles` scans a raw tile string into tokens. It uppercases the
  string and removes spaces. It keeps the Spanish double tiles CH, LL and RR
  whole.
- `can_form_word_only_tiles` decides whether a word fits a hand.
- `can_form_word_exactly_one_free_tile` is the same check with a second pool
  of "free" tiles.
- `generate_words` filters a dictionary with the check the call asks for,
  sorts the result by (longer first, then string order) and keeps the first
  `limit` words. The command-line solver (`banana_no_gui.py`) and the web
  front end (`app.py`) each have a copy.

Modules, leaf first:

- `Counter` (counter.dfy) models the `collections.Counter` facts the code
  relies on. Counts are Dafny multisets. Key iteration follows first
  insertion.
- `Tokenizer` (tokenizer.dfy) models `split_tiles`. The method keeps the
  source's `while` loop. A recursive `Tokenize` is the reference scan.
- `Feasibility` (feasibility.dfy) models both word checks of
  `banana_no_gui.py`, loop by loop.
- `Ranking` (ranking.dfy) holds what both `generate_words` share: the sort
  key, an insertion sort, the list comprehension over the dictionary set, the
  `[:limit]` cut, and the top-N specification `IsTopN` with its uniqueness
  proof.
- `Solver` (solver.dfy) models `generate_words` of `banana_no_gui.py`.
- `App` (app.dfy) models `can_form_word_only_tiles` and `generate_words` of
  `app.py`, and proves that they agree with the solver.

How the counts work. A word is counted character by character. Tiles are
counted token by token. Looking up a character `c` in the tile counter finds
the tokens equal to the one-character string `c`. So a CH tile never
supplies a C or an H.

The free-tile check does not do what its doc-comment
(banana_no_gui.py:30-31) says. Line 49 lowers the hand count of the free
letter, and line 55 lowers that letter's requirement. The two changes cancel.
As a result, a word is accepted exactly when it fits the hand alone and
shares a letter with a one-character free tile
(`Feasibility.FreeTileCharacterization`). Read as the doc-comment states it,
the check would accept "CASA" with hand C, A, S and free tile A. The code
rejects it (`Feasibility.FreeTileNotSpentExample`). This model follows the
code.

`replace(" ", "")` at banana_no_gui.py:101 removes only U+0020. Tabs and
newlines are kept, and each becomes a token of its own.

The dictionary is a `set<string>` parameter. The order in which Python
iterates it is left open: `CollectAccepted` picks elements with `:|`.
`Ranking.TopNUnique` shows that this order cannot change the result.

## Model

| member | source | states |
|---|---|---|
| `Counter.CounterKeys` | banana_no_gui.py:38 | The keys that `Counter.items()` visits: every element of the sequence once, with no duplicates and nothing else. The first-occurrence order is not stated, because no result depends on it. |
| `Tokenizer.Normalize` | banana_no_gui.py:101 | The scanned text contains no U+0020 space, uppercasing leaves each of its characters unchanged, and it is no longer than the raw input. What it keeps is stated by `Tokenizer.NormalizeKeepsOthers`. |
| `Tokenizer.RemoveSpacesKeepsOthers` | banana_no_gui.py:101 | `replace(" ", "")` keeps every character other than U+0020 exactly as often as it occurs, and the text shrinks by exactly the number of spaces. |
| `Tokenizer.NormalizeKeepsOthers` | banana_no_gui.py:101 | The scanned text holds every character of the uppercased input except the spaces, each as often as before. Tabs, newlines and commas survive. |
| `Tokenizer.RemoveSpacesAppend` | banana_no_gui.py:101 | Removing spaces from a joined text gives the space-free parts joined in the same order, so the kept characters never change their order. |
| `Tokenizer.UpperChar` | banana_no_gui.py:101 | `str.upper()` on one character, for ASCII: a-z map to A-Z and every other character is kept. `Tokenizer.NormalizeIdempotent` and `Tokenizer.NormalizeExample` use it. |
| `Tokenizer.Upper` | banana_no_gui.py:101 | `str.upper()` on a string, one character at a time, so length and order are kept. `Tokenizer.NormalizeKeepsOthers` states what survives after it. |
| `Tokenizer.RemoveSpaces` | banana_no_gui.py:101 | The result contains no U+0020 space, is no longer than the input, and stays uppercase when the input is. `Tokenizer.RemoveSpacesKeepsOthers` and `Tokenizer.RemoveSpacesAppend` state that the other characters are kept, in order. |
| `Tokenizer.NormalizeIdempotent` | banana_no_gui.py:101 | Normalizing an already-normalized string changes nothing. |
| `Tokenizer.Tokenize` | banana_no_gui.py:103-111 | The scan as a recursive function over the remaining text: a double tile at the front becomes one token, otherwise the first character does. Its properties are stated by `Tokenizer.TokenizeIsGreedy`. |
| `Tokenizer.TokenizeIsGreedy` | banana_no_gui.py:103-111 | The scan gives a greedy tokenization. Joining the tokens returns the text. Every token is one character or CH/LL/RR. A one-character token is never followed by a character that would pair with it into a double tile. There are at most as many tokens as characters. |
| `Tokenizer.GreedyTokenizationIsUnique` | banana_no_gui.py:103-111 | Any token list with those properties is the scan's output. Left-to-right matching has exactly one outcome and never backtracks. |
| `Tokenizer.SplitTiles` | banana_no_gui.py:94-113 | The loop returns a greedy tokenization of the uppercased, space-free input, equal to the reference scan. Joining the tokens gives that text back. |
| `Tokenizer.GreedyExampleLLL` | banana_no_gui.py:103-111 | "LLL" scans as LL, L. |
| `Tokenizer.GreedyExampleChat` | banana_no_gui.py:104-110 | "CHAT" scans as CH, A, T. |
| `Tokenizer.GreedyExampleLlama` | banana_no_gui.py:103-111 | "LLAMA" scans as LL, A, M, A. |
| `Tokenizer.NormalizeExample` | banana_no_gui.py:101-111 | Lower case and a space are normalized away before the scan: "ch at" scans as CH, A, T. |
| `Tokenizer.SeparatorExample` | banana_no_gui.py:101-111 | A comma survives as its own token: "A,CH" scans as A, ",", CH. |
| `Tokenizer.EmptyExample` | banana_no_gui.py:103-113 | Empty input gives no tokens. |
| `Feasibility.CoversLetters` | banana_no_gui.py:72-75 | The early-exit loop over the word's counter keys succeeds exactly when no key is demanded more often than it is supplied. |
| `Feasibility.CanFormOnlyTiles` | banana_no_gui.py:65-75 | True exactly when each character of the word occurs in it at most as often as the one-character tile for it occurs among the tiles. Double tiles supply nothing. |
| `Feasibility.OverlapTotal` | banana_no_gui.py:42-43 | The sum of the counter intersection is at least 1 exactly when some letter of the word has a one-character free tile. |
| `Feasibility.CoversAfterDiversion` | banana_no_gui.py:48-58 | The free letter is subtracted from both the hand count and the requirement, and the two cancel: the inner loop succeeds exactly when the word fits the hand alone. |
| `Feasibility.TryFreeTiles` | banana_no_gui.py:46-61 | The outer loop over free-tile keys succeeds exactly when the word fits the hand and some key is a one-character tile of a letter of the word. |
| `Feasibility.CanFormExactlyOneFreeTile` | banana_no_gui.py:28-63 | An accepted word fits the hand and free tiles together (lines 37-40). It also shares a letter with a free tile, so an empty or disjoint free pool rejects every word (lines 42-45, 61-63). |
| `Feasibility.FreeTileCharacterization` | banana_no_gui.py:46-60 | The free-tile check accepts exactly the words that fit the hand alone and share a letter with a one-character free tile. |
| `Feasibility.AcceptedWordFitsHand` | banana_no_gui.py:46-60 | Every word the free-tile check accepts fits the hand without any free tile. |
| `Feasibility.SharedLetterIsAccepted` | banana_no_gui.py:37-60 | A word that fits the hand and has a letter among the one-character free tiles is accepted. |
| `Feasibility.FreeTileNotSpentExample` | banana_no_gui.py:28-63 | "CASA" with hand C, A, S and free tile A is rejected, although spending the free A would complete it. |
| `Feasibility.FreeTileUnneededExample` | banana_no_gui.py:28-63 | "CASA" with hand C, A, A, S and free tile A is accepted, although no free tile is used. |
| `Feasibility.PlainGatoExample` | banana_no_gui.py:65-75 | "GATO" fits G, A, T, O but not G, A, T. |
| `Ranking.LexLess` | banana_no_gui.py:87 | Python's `<` on `str`: the first differing code point decides, and a proper prefix comes first. `Ranking.LexLessTotal` and `Ranking.LexLessTransitive` state its order properties. |
| `Ranking.RanksBefore` | banana_no_gui.py:87 | The comparison by the key `(-len(x), x)`: longer first, then Python string order. `Ranking.RankTotal` and `Ranking.RankTransitive` state that it is a strict total order. |
| `Ranking.LexLessTotal` | banana_no_gui.py:87 | Python string order compares any two distinct strings. |
| `Ranking.LexLessTransitive` | banana_no_gui.py:87 | Python string order is transitive. |
| `Ranking.RankTotal` | banana_no_gui.py:87 | Distinct words have distinct sort keys `(-len, word)`: one ranks strictly before the other. |
| `Ranking.RankTransitive` | banana_no_gui.py:87 | The key order is transitive. |
| `Ranking.Insert` | banana_no_gui.py:87 | Inserting a new word into a strictly ranked list gives a strictly ranked list with that word added and nothing else. |
| `Ranking.SortByRank` | banana_no_gui.py:87 | Sorting a duplicate-free list gives a strictly ranked list of the same words. |
| `Ranking.CollectAccepted` | banana_no_gui.py:83-85 | The comprehension lists each dictionary word that passes the check once, and no other word. |
| `Ranking.SelectTop` | banana_no_gui.py:82-88 | Filter, sort and `[:limit]` give the top `limit` of the passing words. That is `min(limit, #passing)` words, all passing, strictly ranked, with every omitted passing word ranked after every returned one. |
| `Ranking.TopNUnique` | banana_no_gui.py:82-88 | Two lists that are both a top `limit` of the same pool are equal. The output does not depend on the set's iteration order. |
| `Ranking.RankingExample` | banana_no_gui.py:87-88 | With {CASA, GATO, SOL} all passing, the result is CASA, GATO, SOL. |
| `Solver.Accepts` | banana_no_gui.py:82-85 | The check that `if free_tiles:` chooses for each dictionary word: the free-tile check for a non-empty list, the plain check otherwise. `Solver.EmptyFreeTilesMeanPlainMode` and `Solver.GeneratedWordsFitHand` state what it accepts. |
| `Solver.UsesFreeTiles` | banana_no_gui.py:82 | `if free_tiles:` takes the free-tile branch only for a non-empty list; `None` and `[]` are both false. `Solver.EmptyFreeTilesMeanPlainMode` states the consequence. |
| `Solver.GenerateWords` | banana_no_gui.py:77-88 | Returns the top `limit` of the dictionary words that pass the free-tile check when `free_tiles` is a non-empty list, and the plain check otherwise. |
| `Solver.EmptyFreeTilesMeanPlainMode` | banana_no_gui.py:82-85 | `free_tiles=[]` selects the same words as `None`: those that fit the hand. |
| `Solver.GeneratedWordsFitHand` | banana_no_gui.py:82-88 | Every generated word is in the dictionary and fits the hand alone. In free mode it also shares a letter with a free tile. |
| `App.CanFormOnlyTiles` | app.py:29-39 | True exactly when each character's count in the word is at most the number of tokens equal to that single character. |
| `App.EmptyWordFormable` | app.py:36-39 | The empty word is always formable. |
| `App.MoreTilesKeepFormable` | app.py:36-39 | Adding tiles never turns a true result false. |
| `App.MultiCharTokenIgnored` | app.py:33-37 | Adding a token of other than one character, such as "CH" or an uncut "AB", never changes the result. |
| `App.GenerateWords` | app.py:41-48 | Returns `min(limit, #formable)` distinct dictionary words, all formable from the tiles, ordered by length descending and then string order. Every formable word left out ranks after every word returned. |
| `App.GenerateWordsMatchesSolver` | app.py:41-48 | The web front end's result equals the command-line solver's `generate_words` with `free_tiles=None` (banana_no_gui.py:82-88). |

## Left out

- `load_spanish_dictionary` in both files is left out. It does file I/O, printing and `sys.exit`. The dictionary is a `set<string>` parameter instead.
- `main` of banana_no_gui.py is left out. It is an interactive `input`/`print` loop. Adding tiles there only extends the hand list.
- The Flask app, its routes and the request parsing of app.py:65 are left out. They are HTTP plumbing around `generate_words`.
- `Tokenizer.Normalize` models `str.upper()` for ASCII only: a-z become A-Z and every other character is kept. Python also uppercases letters such as ñ and á, and can change a string's length (ß becomes SS). Unicode case mapping is not modelled.
- `Ranking.SortByRank` is an insertion sort, not Python's Timsort. Distinct words have distinct keys, so every correct sort gives this same list.
- `limit` is a `nat`. Python slicing with a negative `limit` is not modelled.
- The default `limit=10` is not modelled. Callers pass the limit explicitly.
- `App.GenerateWords` does not model the unused `tile_counter` of app.py:45. It has no effect on the result.

=== FILE: app.dfy ===
/**
  The word checks of app.py, the web front end. Its `can_form_word_only_tiles`
  is the same code as the command-line solver's, and its `generate_words`
  has no free tiles.
 */
module App {
  import Feasibility
  import opened Ranking
  import Solver

  /** `can_form_word_only_tiles` of app.py: true exactly when every
      character occurs in the word at most as often as the one-character
      tile for it occurs among the tiles. */
  function CanFormOnlyTiles(word: string, tiles: seq<string>): (r: bool)
    ensures r <==> forall c :: c in word ==> multiset(word)[c] <= multiset(tiles)[[c]]
  {
    Feasibility.CanFormOnlyTiles(word, tiles)
  }

  /** The empty word is always formable. */
  lemma EmptyWordFormable(tiles: seq<string>)
    ensures CanFormOnlyTiles("", tiles)
  {
  }

  /** More tiles never turn a formable word unformable. */
  lemma MoreTilesKeepFormable(word: string, tiles: seq<string>, extra: seq<string>)
    requires CanFormOnlyTiles(word, tiles)
    ensures CanFormOnlyTiles(word, tiles + extra)
  {
    assert multiset(tiles + extra) == multiset(tiles) + multiset(extra);
  }

  /** A token of other than one character, such as "CH" or the "AB" a
      comma-free request yields, changes nothing: it never supplies a letter. */
  lemma MultiCharTokenIgnored(word: string, tiles: seq<string>, token: string)
    requires |token| != 1
    ensures CanFormOnlyTiles(word, tiles + [token]) == CanFormOnlyTiles(word, tiles)
  {
    assert multiset(tiles + [token]) == multiset(tiles) + multiset{token};
    assert forall c: char :: [c] != token;
  }

  /** `can_form_word_only_tiles(word, tiles)` as the predicate the list comprehension applies. */
  function Check(tiles: seq<string>): string -> bool {
    w => CanFormOnlyTiles(w, tiles)
  }

  /** The dictionary words formable from `tiles`. */
  function Formable(tiles: seq<string>, dictionary: set<string>): set<string> {
    Accepted(dictionary, Check(tiles))
  }

  /** `generate_words(tiles, dictionary, limit)` of app.py. The unused
      `tile_counter` of line 45 is not modelled. */
  method GenerateWords(tiles: seq<string>, dictionary: set<string>, limit: nat) returns (words: seq<string>)
    ensures IsTopN(words, Formable(tiles, dictionary), limit)
  {
    words := SelectTop(dictionary, Check(tiles), limit);
  }

  /** app.py's `generate_words` returns what the command-line solver's
      returns when called with `free_tiles=None`. */
  lemma GenerateWordsMatchesSolver(tiles: seq<string>, dictionary: set<string>, limit: nat, appWords: seq<string>, solverWords: seq<string>)
    requires IsTopN(appWords, Formable(tiles, dictionary), limit)
    requires IsTopN(solverWords, Solver.Candidates(tiles, dictionary, Solver.None), limit)
    ensures appWords == solverWords
  {
    assert Formable(tiles, dictionary) == Solver.Candidates(tiles, dictionary, Solver.None);
    TopNUnique(appWords, solverWords, Formable(tiles, dictionary), limit);
  }
}

=== FILE: counter.dfy ===
/**
  The parts of Python's `collections.Counter` the engine relies on.

  A `Counter` built from a sequence maps each element to its number of
  occurrences; here that is Dafny's `multiset(s)`, whose `m[x]` is 0 for an
  absent `x` exactly like `Counter.__getitem__`. What a multiset does not
  carry is the order in which `Counter.items()` and iteration visit the keys:
  first-insertion order. `CounterKeys` supplies it.
 */
module Counter {

  /** No element occurs twice in `s`. */
  predicate NoDuplicates<T(==)>(s: seq<T>) {
    forall i, j :: 0 <= i < j < |s| ==> s[i] != s[j]
  }

  /** The keys of `Counter(s)` in iteration order: each distinct element of
      `s` once, ordered by its first occurrence. The contract states only
      which keys there are. The loops that walk them (`CoversLetters`,
      `TryFreeTiles`) decide the same in any key order, so the order itself
      is never needed. */
  function CounterKeys<T(==)>(s: seq<T>): (keys: seq<T>)
    ensures NoDuplicates(keys)
    ensures forall k :: 0 <= k < |s| ==> s[k] in keys
    ensures forall k :: 0 <= k < |keys| ==> keys[k] in s
    ensures |keys| <= |s|
  {
    if |s| == 0 then []
    else
      var keys := CounterKeys(s[..|s| - 1]);
      assert forall k :: 0 <= k < |s| - 1 ==> s[k] == s[..|s| - 1][k];
      if s[|s| - 1] in keys then keys else keys + [s[|s| - 1]]
  }

  /** A sequence without duplicates has as many elements as its set. */
  lemma {:induction false} DistinctCardinality<T>(s: seq<T>)
    requires NoDuplicates(s)
    ensures |set x | x in s| == |s|
  {
    if |s| > 0 {
      var tail := s[1..];
      assert NoDuplicates(tail) by {
        forall i, j | 0 <= i < j < |tail| ensures tail[i] != tail[j] {
          assert tail[i] == s[i + 1] && tail[j] == s[j + 1];
        }
      }
      DistinctCardinality(tail);
      assert s[0] !in tail by {
        forall k | 0 <= k < |tail| ensures tail[k] != s[0] {
          assert tail[k] == s[k + 1];
        }
      }
      assert (set x | x in s) == (set x | x in tail) + {s[0]} by {
        assert forall x :: x in s <==> x in tail || x == s[0];
      }
    }
  }
}

=== FILE: feasibility.dfy ===
/**
  The two word checks of banana_no_gui.py.

  A word is counted character by character (`Counter(word)`), the tiles
  token by token (`Counter(tiles)`). Looking a character `c` up in the tile
  counter finds the tokens equal to the one-character string `[c]`, so a
  double tile such as "CH" never supplies a "C" or an "H".

  Both checks are modelled loop by loop as the source writes them; the
  lemmas then say what they decide in terms of counts.
 */
module Feasibility {
  import opened Counter

  /** `tile_counter[letter]`: how many tokens equal the one-character string `[c]`. */
  function TileCount(tiles: seq<string>, c: char): nat {
    multiset(tiles)[[c]]
  }

  /** The word fits the tiles: each character occurs in the word at most as
      often as its one-character tile occurs among the tiles. */
  predicate Fits(word: string, tiles: seq<string>) {
    forall c :: c in word ==> multiset(word)[c] <= TileCount(tiles, c)
  }

  /** The loop `for letter, count in word_counter.items(): if supply[letter] < count: return False`,
      walking the keys `letters` in order; it succeeds exactly when no key is short. */
  function CoversLetters(letters: seq<char>, demand: multiset<char>, supply: multiset<string>): (ok: bool)
    ensures ok <==> forall k :: 0 <= k < |letters| ==> demand[letters[k]] <= supply[[letters[k]]]
  {
    if |letters| == 0 then true
    else if supply[[letters[0]]] < demand[letters[0]] then false
    else CoversLetters(letters[1..], demand, supply)
  }

  /** `can_form_word_only_tiles`. */
  function CanFormOnlyTiles(word: string, tiles: seq<string>): (r: bool)
    ensures r <==> Fits(word, tiles)
  {
    var keys := CounterKeys(word);
    assert forall c :: c in word ==> c in keys by {
      forall c | c in word ensures c in keys {
        var k :| 0 <= k < |word| && word[k] == c;
      }
    }
    CoversLetters(keys, multiset(word), multiset(tiles))
  }

  /** `word_counter[key]` for a key of the free-tile counter: a token of
      other than one character is no character of the word and counts 0. */
  function WordCountOf(demand: multiset<char>, token: string): nat {
    if |token| == 1 then demand[token[0]] else 0
  }

  /** `sum((word_counter & free_tile_counter).values())`: `&` keeps, for each
      key of the word counter, the smaller of its two counts. The sum is
      positive exactly when some letter of the word has a free tile. */
  function OverlapTotal(letters: seq<char>, demand: multiset<char>, free: multiset<string>): (total: nat)
    ensures total >= 1 <==> exists k :: 0 <= k < |letters| && demand[letters[k]] >= 1 && free[[letters[k]]] >= 1
  {
    if |letters| == 0 then 0
    else
      var c := letters[0];
      var common := if demand[c] < free[[c]] then demand[c] else free[[c]];
      var rest := OverlapTotal(letters[1..], demand, free);
      assert forall k :: 1 <= k < |letters| ==> letters[k] == letters[1..][k - 1];
      common + rest
  }

  /** The inner loop of lines 48-58 for one free tile `freeTile`: the hand
      count of `freeTile` is lowered by one, and so is the word's requirement
      for the letter equal to it. The two changes cancel, so the loop decides
      the same as the plain hand check. */
  function CoversAfterDiversion(letters: seq<char>, demand: multiset<char>, hand: multiset<string>, freeTile: string): (ok: bool)
    ensures ok <==> forall k :: 0 <= k < |letters| ==> demand[letters[k]] <= hand[[letters[k]]]
  {
    if |letters| == 0 then true
    else
      var letter := letters[0];
      var diverted: int := if [letter] == freeTile then 1 else 0;
      var required := demand[letter] - diverted;
      var available := hand[[letter]] - diverted;
      if required > available then false
      else CoversAfterDiversion(letters[1..], demand, hand, freeTile)
  }

  /** The outer loop of lines 46-61 over the free tile counter's keys: the
      first key the word uses whose diverted check succeeds settles it. */
  function TryFreeTiles(freeKeys: seq<string>, letters: seq<char>, demand: multiset<char>, hand: multiset<string>, free: multiset<string>): (r: bool)
    ensures r <==>
      && (forall k :: 0 <= k < |letters| ==> demand[letters[k]] <= hand[[letters[k]]])
      && (exists j :: 0 <= j < |freeKeys| && WordCountOf(demand, freeKeys[j]) >= 1 && free[freeKeys[j]] >= 1)
  {
    if |freeKeys| == 0 then false
    else
      var freeTile := freeKeys[0];
      if WordCountOf(demand, freeTile) >= 1 && free[freeTile] >= 1
        && CoversAfterDiversion(letters, demand, hand, freeTile)
      then true
      else
        var r := TryFreeTiles(freeKeys[1..], letters, demand, hand, free);
        assert forall j :: 1 <= j < |freeKeys| ==> freeKeys[j] == freeKeys[1..][j - 1];
        r
  }

  /** `can_form_word_exactly_one_free_tile`, lines 33-63. An accepted word
      fits the hand and the free tiles together, and shares a letter with a
      one-character free tile. */
  function CanFormExactlyOneFreeTile(word: string, tiles: seq<string>, freeTiles: seq<string>): (r: bool)
    ensures r ==> CanFormOnlyTiles(word, tiles + freeTiles)
    ensures r ==> exists c :: c in word && [c] in freeTiles
  {
    var hand := multiset(tiles);
    var free := multiset(freeTiles);
    var demand := multiset(word);
    var letters := CounterKeys(word);
    var total := hand + free;
    if !CoversLetters(letters, demand, total) then false
    else if OverlapTotal(letters, demand, free) >= 1 then
      var r := TryFreeTiles(CounterKeys(freeTiles), letters, demand, hand, free);
      assert r ==> CanFormOnlyTiles(word, tiles + freeTiles) by {
        assert multiset(tiles + freeTiles) == total;
        KeysCoverWord(word);
      }
      r
    else false
  }

  /** Every character of the word is one of its counter keys. */
  lemma KeysCoverWord(word: string)
    ensures forall c :: c in word ==> c in CounterKeys(word)
  {
    forall c | c in word ensures c in CounterKeys(word) {
      var k :| 0 <= k < |word| && word[k] == c;
    }
  }

  /** What the free-tile check decides: the decrement of the hand count of
      the free letter (line 49) and of that letter's requirement (line 55)
      cancel, so a word is accepted exactly when it fits the hand ALONE and
      one of its letters is also a one-character free tile. No free tile is
      ever needed to complete the word. */
  lemma FreeTileCharacterization(word: string, tiles: seq<string>, freeTiles: seq<string>)
    ensures CanFormExactlyOneFreeTile(word, tiles, freeTiles)
      <==> CanFormOnlyTiles(word, tiles) && exists c :: c in word && [c] in freeTiles
  {
    if CanFormExactlyOneFreeTile(word, tiles, freeTiles) {
      AcceptedWordFitsHand(word, tiles, freeTiles);
    }
    if CanFormOnlyTiles(word, tiles) && exists c :: c in word && [c] in freeTiles {
      var c :| c in word && [c] in freeTiles;
      SharedLetterIsAccepted(word, tiles, freeTiles, c);
    }
  }

  lemma AcceptedWordFitsHand(word: string, tiles: seq<string>, freeTiles: seq<string>)
    requires CanFormExactlyOneFreeTile(word, tiles, freeTiles)
    ensures Fits(word, tiles)
  {
    var hand, free, demand := multiset(tiles), multiset(freeTiles), multiset(word);
    var letters := CounterKeys(word);
    KeysCoverWord(word);
    assert TryFreeTiles(CounterKeys(freeTiles), letters, demand, hand, free);
  }

  lemma SharedLetterIsAccepted(word: string, tiles: seq<string>, freeTiles: seq<string>, c: char)
    requires Fits(word, tiles)
    requires c in word && [c] in freeTiles
    ensures CanFormExactlyOneFreeTile(word, tiles, freeTiles)
  {
    var hand, free, demand := multiset(tiles), multiset(freeTiles), multiset(word);
    var letters, freeKeys := CounterKeys(word), CounterKeys(freeTiles);
    KeysCoverWord(word);
    assert CoversLetters(letters, demand, hand + free);
    var k :| 0 <= k < |letters| && letters[k] == c;
    assert demand[letters[k]] >= 1 && free[[letters[k]]] >= 1;
    assert OverlapTotal(letters, demand, free) >= 1;
    var i :| 0 <= i < |freeTiles| && freeTiles[i] == [c];
    var j :| 0 <= j < |freeKeys| && freeKeys[j] == [c];
    assert WordCountOf(demand, freeKeys[j]) >= 1 && free[freeKeys[j]] >= 1;
    assert TryFreeTiles(freeKeys, letters, demand, hand, free);
  }

  // The examples below take their literals as parameters fixed by `requires`.
  // Stated on the literals directly, the verifier unfolds the counters and
  // key loops on constant arguments, and that approaches its resource limit.

  /** The free-tile check and the doc-comment's promise part ways: "CASA"
      needs a second A, and with hand C, A, S and free tile A it is rejected,
      although spending the free A would complete it. */
  lemma FreeTileNotSpentExample(word: string, hand: seq<string>, free: seq<string>)
    requires word == "CASA" && hand == ["C", "A", "S"] && free == ["A"]
    ensures !CanFormExactlyOneFreeTile(word, hand, free)
  {
    FreeTileCharacterization(word, hand, free);
    assert word[1] == 'A' && multiset(word)['A'] == 2;
    assert TileCount(hand, 'A') == 1;
  }

  /** With hand C, A, A, S and free tile A "CASA" is accepted, although no
      free tile is needed to complete it. */
  lemma FreeTileUnneededExample(word: string, hand: seq<string>, free: seq<string>)
    requires word == "CASA" && hand == ["C", "A", "A", "S"] && free == ["A"]
    ensures CanFormExactlyOneFreeTile(word, hand, free)
  {
    FreeTileCharacterization(word, hand, free);
    assert word[1] == 'A' && free[0] == ['A'];
    CasaFitsTwoAs(word, hand);
  }

  lemma CasaFitsTwoAs(word: string, hand: seq<string>)
    requires word == "CASA" && hand == ["C", "A", "A", "S"]
    ensures Fits(word, hand)
  {
    var demand := multiset{'C', 'A', 'S', 'A'};
    var supply := multiset{"C", "A", "A", "S"};
    assert multiset(word) == demand && multiset(hand) == supply;
    assert demand['C'] == 1 && demand['A'] == 2 && demand['S'] == 1;
    assert supply["C"] == 1 && supply["A"] == 2 && supply["S"] == 1;
    forall c | c in word ensures demand[c] <= supply[[c]] {
      assert c == 'C' || c == 'A' || c == 'S';
    }
  }

  /** "GATO" fits the tiles G, A, T, O but not G, A, T, which lack the O. */
  lemma PlainGatoExample(word: string, hand: seq<string>, short: seq<string>)
    requires word == "GATO" && hand == ["G", "A", "T", "O"] && short == ["G", "A", "T"]
    ensures CanFormOnlyTiles(word, hand)
    ensures !CanFormOnlyTiles(word, short)
  {
    assert Fits(word, hand) by {
      forall c | c in word ensures multiset(word)[c] <= TileCount(hand, c) {
        assert c == 'G' || c == 'A' || c == 'T' || c == 'O';
      }
    }
    assert word[3] == 'O' && TileCount(short, 'O') == 0;
  }
}

=== FILE: ranking.dfy ===
/**
  Selection of the best words, shared by both `generate_words`.

  The passing dictionary words are collected into a list, sorted with the
  key `(-len(x), x)` (longer first, then by Python's string order) and cut
  to the first `limit`. Distinct strings have distinct keys, so the order
  is strict and the outcome does not depend on the order in which the
  dictionary set is iterated: `TopNUnique`.
 */
module Ranking {
  import opened Counter

  /** Python's `<` on `str`: the first differing code point decides, and a
      proper prefix comes first. */
  predicate LexLess(a: string, b: string)
    decreases |a|
  {
    |b| > 0 && (|a| == 0 || a[0] < b[0] || (a[0] == b[0] && LexLess(a[1..], b[1..])))
  }

  lemma {:induction false} LexLessIrreflexive(a: string)
    ensures !LexLess(a, a)
    decreases |a|
  {
    if |a| > 0 {
      LexLessIrreflexive(a[1..]);
    }
  }

  lemma {:induction false} LexLessTransitive(a: string, b: string, c: string)
    requires LexLess(a, b) && LexLess(b, c)
    ensures LexLess(a, c)
    decreases |a|
  {
    if |a| > 0 && a[0] == b[0] && b[0] == c[0] {
      LexLessTransitive(a[1..], b[1..], c[1..]);
    }
  }

  lemma {:induction false} LexLessTotal(a: string, b: string)
    requires a != b
    ensures LexLess(a, b) || LexLess(b, a)
    decreases |a|
  {
    if |a| > 0 && |b| > 0 && a[0] == b[0] {
      assert a == [a[0]] + a[1..] && b == [b[0]] + b[1..];
      LexLessTotal(a[1..], b[1..]);
    }
  }

  /** `a` sorts before `b` under the key `(-len(x), x)`: it is longer, or
      as long and smaller as a string. */
  predicate RanksBefore(a: string, b: string) {
    |a| > |b| || (|a| == |b| && LexLess(a, b))
  }

  lemma RankIrreflexive(a: string)
    ensures !RanksBefore(a, a)
  {
    LexLessIrreflexive(a);
  }

  lemma RankTransitive(a: string, b: string, c: string)
    requires RanksBefore(a, b) && RanksBefore(b, c)
    ensures RanksBefore(a, c)
  {
    if |a| == |b| == |c| {
      LexLessTransitive(a, b, c);
    }
  }

  /** Distinct words never tie: one of them ranks before the other. */
  lemma RankTotal(a: string, b: string)
    requires a != b
    ensures RanksBefore(a, b) || RanksBefore(b, a)
  {
    LexLessTotal(a, b);
  }

  /** Every word ranks before every later word. */
  predicate StrictlyRanked(s: seq<string>) {
    forall i, j :: 0 <= i < j < |s| ==> RanksBefore(s[i], s[j])
  }

  lemma StrictlyRankedHasNoDuplicates(s: seq<string>)
    requires StrictlyRanked(s)
    ensures NoDuplicates(s)
  {
    forall i, j | 0 <= i < j < |s| ensures s[i] != s[j] {
      RankIrreflexive(s[i]);
    }
  }

  lemma ConsRanked(head: string, rest: seq<string>)
    requires StrictlyRanked(rest)
    requires forall k :: 0 <= k < |rest| ==> RanksBefore(head, rest[k])
    ensures StrictlyRanked([head] + rest)
  {
    var s := [head] + rest;
    forall i, j | 0 <= i < j < |s| ensures RanksBefore(s[i], s[j]) {
      assert s[j] == rest[j - 1];
      if i > 0 {
        assert s[i] == rest[i - 1];
      }
    }
  }

  /** Insertion of a new word into a strictly ranked list at its place. */
  function Insert(x: string, s: seq<string>): (r: seq<string>)
    requires StrictlyRanked(s)
    requires x !in s
    ensures StrictlyRanked(r)
    ensures |r| == |s| + 1
    ensures forall w :: w in r <==> w == x || w in s
  {
    if |s| == 0 then [x]
    else if RanksBefore(x, s[0]) then
      assert forall k :: 0 <= k < |s| ==> RanksBefore(x, s[k]) by {
        forall k | 0 <= k < |s| ensures RanksBefore(x, s[k]) {
          if k > 0 {
            RankTransitive(x, s[0], s[k]);
          }
        }
      }
      ConsRanked(x, s);
      [x] + s
    else
      var rest := Insert(x, s[1..]);
      assert forall k :: 0 <= k < |rest| ==> RanksBefore(s[0], rest[k]) by {
        forall k | 0 <= k < |rest| ensures RanksBefore(s[0], rest[k]) {
          if rest[k] == x {
            RankTotal(x, s[0]);
          } else {
            assert rest[k] in rest && rest[k] in s[1..];
            var j :| 0 <= j < |s[1..]| && s[1..][j] == rest[k];
            assert s[j + 1] == rest[k];
          }
        }
      }
      ConsRanked(s[0], rest);
      assert s == [s[0]] + s[1..];
      [s[0]] + rest
  }

  /** `list.sort(key=lambda x: (-len(x), x))` on a list without duplicates,
      as an insertion sort: the result holds the same words, strictly ranked. */
  function SortByRank(words: seq<string>): (r: seq<string>)
    requires NoDuplicates(words)
    ensures StrictlyRanked(r)
    ensures |r| == |words|
    ensures forall w :: w in r <==> w in words
  {
    if |words| == 0 then []
    else
      assert NoDuplicates(words[1..]) by {
        forall i, j | 0 <= i < j < |words[1..]| ensures words[1..][i] != words[1..][j] {
          assert words[1..][i] == words[i + 1] && words[1..][j] == words[j + 1];
        }
      }
      assert words[0] !in words[1..] by {
        forall k | 0 <= k < |words[1..]| ensures words[1..][k] != words[0] {
          assert words[1..][k] == words[k + 1];
        }
      }
      assert words == [words[0]] + words[1..];
      Insert(words[0], SortByRank(words[1..]))
  }

  function Min(a: nat, b: nat): nat {
    if a <= b then a else b
  }

  /** `r` is the top `limit` of `pool`: as many words as `limit` allows, all
      from the pool, strictly ranked, and every pool word left out ranks
      after every word kept. */
  predicate IsTopN(r: seq<string>, pool: set<string>, limit: nat) {
    && |r| == Min(limit, |pool|)
    && (forall i :: 0 <= i < |r| ==> r[i] in pool)
    && StrictlyRanked(r)
    && (forall w, i :: w in pool && w !in r && 0 <= i < |r| ==> RanksBefore(r[i], w))
  }

  /** The words of a top-N list that rank before its `i`-th word are exactly
      those before it in the list. */
  lemma TopNPredecessors(r: seq<string>, pool: set<string>, limit: nat, i: nat)
    requires IsTopN(r, pool, limit)
    requires i < |r|
    ensures forall v :: v in pool && RanksBefore(v, r[i]) <==> v in r[..i]
  {
    forall v ensures v in pool && RanksBefore(v, r[i]) <==> v in r[..i] {
      if v in r[..i] {
        var j :| 0 <= j < i && r[..i][j] == v;
        assert r[j] == v;
      }
      if v in pool && RanksBefore(v, r[i]) {
        if v in r {
          var j :| 0 <= j < |r| && r[j] == v;
          if j == i {
            RankIrreflexive(v);
          } else if j > i {
            RankIrreflexive(v);
            RankTransitive(v, r[i], v);
          }
          assert r[..i][j] == v;
        } else {
          RankIrreflexive(v);
          RankTransitive(v, r[i], v);
        }
      }
    }
  }

  lemma {:induction false} TopNPrefixesAgree(r1: seq<string>, r2: seq<string>, pool: set<string>, limit: nat, n: nat)
    requires IsTopN(r1, pool, limit) && IsTopN(r2, pool, limit)
    requires n <= |r1|
    ensures r1[..n] == r2[..n]
    decreases n
  {
    if n > 0 {
      var i := n - 1;
      TopNPrefixesAgree(r1, r2, pool, limit, i);
      if r1[i] != r2[i] {
        TopNPredecessors(r1, pool, limit, i);
        TopNPredecessors(r2, pool, limit, i);
        StrictlyRankedHasNoDuplicates(r1);
        StrictlyRankedHasNoDuplicates(r2);
        RankTotal(r1[i], r2[i]);
        assert false;
      }
      assert r1[..n] == r1[..i] + [r1[i]];
      assert r2[..n] == r2[..i] + [r2[i]];
    }
  }

  /** The top `limit` of a pool is unique, so `generate_words` returns the
      same list whatever order the dictionary set is iterated in. */
  lemma TopNUnique(r1: seq<string>, r2: seq<string>, pool: set<string>, limit: nat)
    requires IsTopN(r1, pool, limit) && IsTopN(r2, pool, limit)
    ensures r1 == r2
  {
    TopNPrefixesAgree(r1, r2, pool, limit, |r1|);
    assert r1[..|r1|] == r1 && r2[..|r2|] == r2;
  }

  /** The words of `dictionary` that `accepts` lets through. */
  function Accepted(dictionary: set<string>, accepts: string -> bool): set<string> {
    set w | w in dictionary && accepts(w)
  }

  /** `[word for word in dictionary if accepts(word)]`: the set is visited
      in an order the model leaves open. */
  method CollectAccepted(dictionary: set<string>, accepts: string -> bool) returns (valid: seq<string>)
    ensures NoDuplicates(valid)
    ensures forall w :: w in valid <==> w in dictionary && accepts(w)
  {
    valid := [];
    var rest := dictionary;
    while rest != {}
      invariant rest <= dictionary
      invariant NoDuplicates(valid)
      invariant forall w :: w in valid <==> w in dictionary && w !in rest && accepts(w)
      decreases rest
    {
      var w :| w in rest;
      if accepts(w) {
        valid := valid + [w];
      }
      rest := rest - {w};
    }
  }

  /** Filter, sort and `[:limit]`, the shared body of both `generate_words`. */
  method SelectTop(dictionary: set<string>, accepts: string -> bool, limit: nat) returns (r: seq<string>)
    ensures IsTopN(r, Accepted(dictionary, accepts), limit)
  {
    var valid := CollectAccepted(dictionary, accepts);
    var sorted := SortByRank(valid);
    var pool := Accepted(dictionary, accepts);
    assert (set w | w in valid) == pool;
    DistinctCardinality(valid);
    var n := Min(limit, |sorted|);
    r := sorted[..n];
    forall w, i | w in pool && w !in r && 0 <= i < |r| ensures RanksBefore(r[i], w) {
      var j :| 0 <= j < |sorted| && sorted[j] == w;
      assert forall k :: 0 <= k < n ==> r[k] == sorted[k];
      assert j >= n;
      assert r[i] == sorted[i];
    }
  }

  /** With every word passing, the dictionary {CASA, GATO, SOL} comes out
      as CASA, GATO, SOL: two of length 4 in string order, then SOL. */
  lemma RankingExample(r: seq<string>)
    requires IsTopN(r, {"CASA", "GATO", "SOL"}, 10)
    ensures r == ["CASA", "GATO", "SOL"]
  {
    var pool: set<string> := {"CASA", "GATO", "SOL"};
    var expected := ["CASA", "GATO", "SOL"];
    assert LexLess("CASA", "GATO");
    assert |pool| == 3;
    assert StrictlyRanked(expected);
    assert IsTopN(expected, pool, 10);
    TopNUnique(r, expected, pool, 10);
  }
}

=== FILE: solver.dfy ===
/**
  `generate_words` of banana_no_gui.py: the command-line solver's word
  generator, with an optional pool of free tiles.
 */
module Solver {
  import opened Feasibility
  import opened Ranking

  /** Python's `None` or a value. */
  datatype Option<T> = None | Some(value: T)

  /** `if free_tiles:` is taken for a non-empty list; `None` and `[]` are both false. */
  predicate UsesFreeTiles(freeTiles: Option<seq<string>>) {
    freeTiles.Some? && |freeTiles.value| > 0
  }

  /** The check lines 82-85 apply to each dictionary word. */
  function Accepts(tiles: seq<string>, freeTiles: Option<seq<string>>, word: string): bool {
    if UsesFreeTiles(freeTiles) then CanFormExactlyOneFreeTile(word, tiles, freeTiles.value)
    else CanFormOnlyTiles(word, tiles)
  }

  /** The chosen check as the predicate the list comprehension applies. */
  function Check(tiles: seq<string>, freeTiles: Option<seq<string>>): string -> bool {
    w => Accepts(tiles, freeTiles, w)
  }

  /** The dictionary words the chosen check lets through. */
  function Candidates(tiles: seq<string>, dictionary: set<string>, freeTiles: Option<seq<string>>): set<string> {
    Accepted(dictionary, Check(tiles, freeTiles))
  }

  /** `generate_words(tiles, dictionary, free_tiles, limit)`: the `limit`
      best candidates, longest first and then in string order. */
  method GenerateWords(tiles: seq<string>, dictionary: set<string>, freeTiles: Option<seq<string>>, limit: nat)
    returns (words: seq<string>)
    ensures IsTopN(words, Candidates(tiles, dictionary, freeTiles), limit)
  {
    words := SelectTop(dictionary, Check(tiles, freeTiles), limit);
  }

  /** An empty free-tile list is treated like `None`: plain mode. */
  lemma EmptyFreeTilesMeanPlainMode(tiles: seq<string>, dictionary: set<string>)
    ensures Candidates(tiles, dictionary, Some([])) == Candidates(tiles, dictionary, None)
    ensures Candidates(tiles, dictionary, None) == set w | w in dictionary && Fits(w, tiles)
  {
  }

  /** Every word generated, in either mode, fits the hand alone; with free
      tiles it also shares a letter with a one-character free tile. A word
      that would need a free tile to be complete is never generated. */
  lemma GeneratedWordsFitHand(tiles: seq<string>, dictionary: set<string>, freeTiles: Option<seq<string>>, limit: nat, words: seq<string>)
    requires IsTopN(words, Candidates(tiles, dictionary, freeTiles), limit)
    ensures forall i :: 0 <= i < |words| ==> words[i] in dictionary && Fits(words[i], tiles)
    ensures UsesFreeTiles(freeTiles) ==>
      forall i :: 0 <= i < |words| ==> exists c :: c in words[i] && [c] in freeTiles.value
  {
    forall i | 0 <= i < |words|
      ensures words[i] in dictionary && Fits(words[i], tiles)
      ensures UsesFreeTiles(freeTiles) ==> exists c :: c in words[i] && [c] in freeTiles.value
    {
      assert words[i] in Candidates(tiles, dictionary, freeTiles);
      if UsesFreeTiles(freeTiles) {
        FreeTileCharacterization(words[i], tiles, freeTiles.value);
      }
    }
  }
}

=== FILE: tokenizer.dfy ===
/**
  The tile scanner `split_tiles` of banana_no_gui.py.

  A raw tile string is uppercased, stripped of the space character, and
  scanned left to right: when the two characters at the scan position are
  one of the Spanish double tiles CH, LL or RR they become one token,
  otherwise the single character does. Any other character, a comma
  included, is a token of its own.
 */
module Tokenizer {

  /** The special two-letter tiles. */
  const Digraphs: set<string> := {"CH", "LL", "RR"}

  /** `str.upper()` restricted to ASCII: a-z map to A-Z, everything else is kept. */
  function UpperChar(c: char): char {
    if 'a' <= c <= 'z' then (c as int - 32) as char else c
  }

  function Upper(s: string): string {
    seq(|s|, k requires 0 <= k < |s| => UpperChar(s[k]))
  }

  /** Every character of `s` is left alone by uppercasing. */
  predicate AllUpper(s: string) {
    forall k :: 0 <= k < |s| ==> UpperChar(s[k]) == s[k]
  }

  /** `str.replace(" ", "")`: only U+0020 is removed, not tabs or newlines.
      That every other character is kept is `RemoveSpacesKeepsOthers`. */
  function RemoveSpaces(s: string): (r: string)
    ensures ' ' !in r
    ensures |r| <= |s|
    ensures AllUpper(s) ==> AllUpper(r)
  {
    if |s| == 0 then []
    else (if s[0] == ' ' then [] else [s[0]]) + RemoveSpaces(s[1..])
  }

  /** Removing spaces keeps every other character as often as it occurs,
      and shortens the text by exactly the number of spaces. */
  lemma {:induction false} RemoveSpacesKeepsOthers(s: string)
    ensures multiset(RemoveSpaces(s)) == multiset(s)[' ' := 0]
    ensures |RemoveSpaces(s)| == |s| - multiset(s)[' ']
    decreases |s|
  {
    if |s| > 0 {
      RemoveSpacesKeepsOthers(s[1..]);
      assert s == [s[0]] + s[1..];
      assert multiset(s) == multiset{s[0]} + multiset(s[1..]);
    }
  }

  /** The scanned text: `tiles.upper().replace(" ", "")`. */
  function Normalize(raw: string): (t: string)
    ensures ' ' !in t
    ensures AllUpper(t)
    ensures |t| <= |raw|
  {
    var u := Upper(raw);
    assert AllUpper(u);
    RemoveSpaces(u)
  }

  /** Normalizing keeps every character of the uppercased text except the
      spaces: tabs, newlines and commas survive. */
  lemma NormalizeKeepsOthers(raw: string)
    ensures multiset(Normalize(raw)) == multiset(Upper(raw))[' ' := 0]
    ensures |Normalize(raw)| == |raw| - multiset(Upper(raw))[' ']
  {
    RemoveSpacesKeepsOthers(Upper(raw));
  }

  /** Text already normalized is left as it is, so normalizing twice is normalizing once. */
  lemma {:induction false} NormalizeFixesNormalText(t: string)
    requires ' ' !in t
    requires AllUpper(t)
    ensures Normalize(t) == t
  {
    UpperFixesAllUpper(t);
    RemoveSpacesFixesSpaceless(t);
  }

  lemma {:induction false} RemoveSpacesFixesSpaceless(t: string)
    requires ' ' !in t
    ensures RemoveSpaces(t) == t
  {
    if |t| > 0 {
      assert t[0] != ' ';
      RemoveSpacesFixesSpaceless(t[1..]);
      assert [t[0]] + t[1..] == t;
    }
  }

  lemma UpperFixesAllUpper(t: string)
    requires AllUpper(t)
    ensures Upper(t) == t
  {
  }

  lemma NormalizeIdempotent(raw: string)
    ensures Normalize(Normalize(raw)) == Normalize(raw)
  {
    NormalizeFixesNormalText(Normalize(raw));
  }

  /** The tokens joined back into one string: `"".join(tokens)`. */
  function Concat(tokens: seq<string>): string {
    if |tokens| == 0 then [] else tokens[0] + Concat(tokens[1..])
  }

  /** A token the scanner can emit: one character, or one of the double tiles. */
  predicate IsTile(token: string) {
    |token| == 1 || token in Digraphs
  }

  /** No single-character token is followed by a token whose first character
      would have made a double tile with it: the scan never leaves a pair unjoined. */
  predicate Greedy(tokens: seq<string>) {
    forall k :: 0 <= k < |tokens| - 1 && |tokens[k]| == 1 && |tokens[k + 1]| > 0 ==>
      [tokens[k][0], tokens[k + 1][0]] !in Digraphs
  }

  /** `tokens` is a greedy left-to-right tokenization of the text `t`. */
  predicate WellTokenized(t: string, tokens: seq<string>) {
    && Concat(tokens) == t
    && (forall k :: 0 <= k < |tokens| ==> IsTile(tokens[k]))
    && Greedy(tokens)
  }

  lemma GreedyCons(head: string, rest: seq<string>)
    requires Greedy(rest)
    requires |head| == 1 && |rest| > 0 && |rest[0]| > 0 ==> [head[0], rest[0][0]] !in Digraphs
    ensures Greedy([head] + rest)
  {
    var tokens := [head] + rest;
    forall k | 0 <= k < |tokens| - 1 && |tokens[k]| == 1 && |tokens[k + 1]| > 0
      ensures [tokens[k][0], tokens[k + 1][0]] !in Digraphs
    {
      if k > 0 {
        assert tokens[k] == rest[k - 1] && tokens[k + 1] == rest[k];
      }
    }
  }

  /** The scan of lines 103-111 as a recursive function over the remaining text. */
  function Tokenize(t: string): (tokens: seq<string>)
    decreases |t|
  {
    if |t| == 0 then []
    else if |t| >= 2 && t[..2] in Digraphs then [t[..2]] + Tokenize(t[2..])
    else [t[..1]] + Tokenize(t[1..])
  }

  /** The scan yields a greedy tokenization of its text: joining the tokens
      gives the text back, every token is one character or a double tile,
      no double tile is left split, and there are at most as many tokens as
      characters. */
  lemma {:induction false} TokenizeIsGreedy(t: string)
    ensures WellTokenized(t, Tokenize(t))
    ensures |Tokenize(t)| <= |t|
    ensures |t| > 0 ==> |Tokenize(t)| > 0 && Tokenize(t)[0][0] == t[0]
    decreases |t|
  {
    if |t| >= 2 && t[..2] in Digraphs {
      TokenizeIsGreedy(t[2..]);
      assert t[..2] + t[2..] == t;
      GreedyCons(t[..2], Tokenize(t[2..]));
    } else if |t| > 0 {
      TokenizeIsGreedy(t[1..]);
      assert t[..1] + t[1..] == t;
      assert |t| >= 2 ==> [t[0], t[1]] == t[..2];
      GreedyCons(t[..1], Tokenize(t[1..]));
    }
  }

  /** A greedy tokenization is unique: it is the one `Tokenize` produces.
      So the scan has exactly one possible outcome and never backtracks. */
  lemma {:induction false} GreedyTokenizationIsUnique(t: string, tokens: seq<string>)
    requires WellTokenized(t, tokens)
    ensures tokens == Tokenize(t)
    decreases |tokens|
  {
    if |tokens| > 0 {
      var head, tail := tokens[0], tokens[1..];
      assert Concat(tokens) == head + Concat(tail);
      assert |head| >= 1 by { assert IsTile(head); }
      assert Greedy(tail) by {
        forall k | 0 <= k < |tail| - 1 && |tail[k]| == 1 && |tail[k + 1]| > 0
          ensures [tail[k][0], tail[k + 1][0]] !in Digraphs
        {
          assert tail[k] == tokens[k + 1] && tail[k + 1] == tokens[k + 2];
        }
      }
      assert forall k :: 0 <= k < |tail| ==> tail[k] == tokens[k + 1];
      GreedyTokenizationIsUnique(Concat(tail), tail);
      if |head| == 2 {
        assert t[..2] == head;
        assert t[2..] == Concat(tail);
      } else {
        assert |head| == 1 && t[..1] == head;
        assert t[1..] == Concat(tail);
        if |t| >= 2 {
          assert |tail| > 0 by { assert Concat(tail) != []; }
          assert IsTile(tail[0]);
          assert tail[0][0] == t[1] by {
            assert Concat(tail) == tail[0] + Concat(tail[1..]);
          }
          assert [tokens[0][0], tokens[1][0]] !in Digraphs;
          assert t[..2] == [tokens[0][0], tokens[1][0]];
        }
      }
    }
  }

  /** One step of the scan at position `i` of `t`. */
  lemma TokenizeAt(t: string, i: nat)
    requires i < |t|
    ensures i + 1 < |t| && t[i..i + 2] in Digraphs ==>
      Tokenize(t[i..]) == [t[i..i + 2]] + Tokenize(t[i + 2..])
    ensures !(i + 1 < |t| && t[i..i + 2] in Digraphs) ==>
      Tokenize(t[i..]) == [[t[i]]] + Tokenize(t[i + 1..])
  {
    var s := t[i..];
    assert s[..1] == [t[i]] && s[1..] == t[i + 1..];
    if i + 1 < |t| {
      assert s[..2] == t[i..i + 2] && s[2..] == t[i + 2..];
    }
  }

  /** `split_tiles`: the loop of lines 103-111 over the normalized string. */
  method SplitTiles(raw: string) returns (tokens: seq<string>)
    ensures WellTokenized(Normalize(raw), tokens)
    ensures tokens == Tokenize(Normalize(raw))
  {
    var t := Normalize(raw);
    tokens := [];
    var i := 0;
    while i < |t|
      invariant 0 <= i <= |t|
      invariant tokens + Tokenize(t[i..]) == Tokenize(t)
      decreases |t| - i
    {
      if i + 1 < |t| {
        var pair := t[i..i + 2];
        if pair in Digraphs {
          TokenizeAt(t, i);
          assert tokens + [pair] + Tokenize(t[i + 2..]) == tokens + ([pair] + Tokenize(t[i + 2..]));
          tokens := tokens + [pair];
          i := i + 2;
          continue;
        }
      }
      TokenizeAt(t, i);
      assert tokens + [[t[i]]] + Tokenize(t[i + 1..]) == tokens + ([[t[i]]] + Tokenize(t[i + 1..]));
      tokens := tokens + [[t[i]]];
      i := i + 1;
    }
    assert t[i..] == [] && Tokenize(t[i..]) == [];
    assert tokens == Tokenize(t);
    TokenizeIsGreedy(t);
  }

  /** "LLL" scans as LL then L: the leftmost pair wins, with no backtracking. */
  lemma GreedyExampleLLL()
    ensures Tokenize("LLL") == ["LL", "L"]
  {
    assert "LLL"[..2] == "LL" && "LLL"[2..] == "L";
    assert Tokenize("L") == ["L"] by { assert "L"[..1] == "L" && "L"[1..] == []; }
  }

  /** "CHAT" scans as CH, A, T. */
  lemma GreedyExampleChat()
    ensures Tokenize("CHAT") == ["CH", "A", "T"]
  {
    assert "CHAT"[..2] == "CH" && "CHAT"[2..] == "AT";
    assert "AT"[..2] == "AT" && "AT" !in Digraphs;
    assert "AT"[..2] !in Digraphs && "AT"[..1] == "A" && "AT"[1..] == "T";
    assert Tokenize("T") == ["T"] by { assert "T"[..1] == "T" && "T"[1..] == []; }
  }

  /** A comma is not removed: it becomes a token of its own. */
  lemma SeparatorExample()
    ensures Tokenize("A,CH") == ["A", ",", "CH"]
  {
    assert "A,CH"[..2] == "A," && "A," !in Digraphs;
    assert "A,CH"[..2] !in Digraphs && "A,CH"[..1] == "A" && "A,CH"[1..] == ",CH";
    assert ",CH"[..2] == ",C" && ",C" !in Digraphs;
    assert ",CH"[..2] !in Digraphs && ",CH"[..1] == "," && ",CH"[1..] == "CH";
    assert Tokenize("CH") == ["CH"] by { assert "CH"[..2] == "CH" && "CH"[2..] == []; }
  }

  /** "LLAMA" scans as LL, A, M, A. */
  lemma GreedyExampleLlama()
    ensures Tokenize("LLAMA") == ["LL", "A", "M", "A"]
  {
    assert "LLAMA"[..2] == "LL" && "LLAMA"[2..] == "AMA";
    assert "AMA"[..2] == "AM" && "AM" !in Digraphs;
    assert "AMA"[..2] !in Digraphs && "AMA"[..1] == "A" && "AMA"[1..] == "MA";
    assert "MA"[..2] == "MA" && "MA" !in Digraphs;
    assert "MA"[..2] !in Digraphs && "MA"[..1] == "M" && "MA"[1..] == "A";
    assert Tokenize("A") == ["A"] by { assert "A"[..1] == "A" && "A"[1..] == []; }
  }

  /** Lower case and a space are normalized away before the scan:
      "ch at" scans as CH, A, T. */
  lemma NormalizeExample(raw: string)
    requires raw == "ch at"
    ensures Tokenize(Normalize(raw)) == ["CH", "A", "T"]
  {
    var u := Upper(raw);
    UpperChAt(raw);
    RemoveSpacesChAt(u);
    assert Normalize(raw) == "CHAT";
    GreedyExampleChat();
  }

  lemma UpperChAt(raw: string)
    requires raw == "ch at"
    ensures Upper(raw) == "CH AT"
  {
    assert |Upper(raw)| == 5;
    assert UpperChar('c') == 'C' && UpperChar('h') == 'H' && UpperChar(' ') == ' ';
    assert UpperChar('a') == 'A' && UpperChar('t') == 'T';
  }

  lemma RemoveSpacesChAt(u: string)
    requires u == "CH AT"
    ensures RemoveSpaces(u) == "CHAT"
  {
    var ch, at := u[..2], u[3..];
    assert u == ch + ([' '] + at);
    RemoveSpacesAppend(ch, [' '] + at);
    RemoveSpacesStep(' ', at);
    RemoveSpacesFixesSpaceless(ch);
    RemoveSpacesFixesSpaceless(at);
  }

  /** `replace` works piece by piece: the kept characters of a joined text
      are the kept characters of each part, in the same order. */
  lemma {:induction false} RemoveSpacesAppend(a: string, b: string)
    ensures RemoveSpaces(a + b) == RemoveSpaces(a) + RemoveSpaces(b)
    decreases |a|
  {
    if |a| > 0 {
      assert a + b == [a[0]] + (a[1..] + b);
      assert a == [a[0]] + a[1..];
      RemoveSpacesStep(a[0], a[1..] + b);
      RemoveSpacesStep(a[0], a[1..]);
      RemoveSpacesAppend(a[1..], b);
    } else {
      assert a + b == b;
    }
  }

  /** One step of `RemoveSpaces` on a text with a known first character. */
  lemma RemoveSpacesStep(c: char, rest: string)
    ensures RemoveSpaces([c] + rest) == (if c == ' ' then [] else [c]) + RemoveSpaces(rest)
  {
    assert ([c] + rest)[1..] == rest;
  }

  /** Empty input gives no tokens. */
  lemma EmptyExample()
    ensures Tokenize(Normalize("")) == []
  {
  }
}
